=== FILE: README.md ===
# Multi-destination short links: a Dafny model

This project models the decision logic of a service that turns several
weighted destination URLs into one short link, redirects visitors of that
link to one of the destinations, and collects waitlist signups. It covers:

- **Link generation** (`GenerateLink`, the `generate_link` Lambda): the
  first-failure validator of `{urls: [{original_url, weight}]}`, the mapping
  of entries to stored targets, base-62 code generation, the conditional
  insert and its collision mapping, the bounded retry loop, and the handler's
  201 / 400 / 500 answers.
- **Redirect** (`Redirect`, the `redirect` Lambda): the 400 / 404 / 301
  decision, the conditions under which `float()` and `random.choices`
  raise on the stored weights, and the weighted pick, promised only to
  return one of the targets' URLs.
- **Waitlist route** (`WaitlistRoute`, `POST /api/waitlist`): 400 / 409 /
  500 / 201 classification, the trimmed insert (`JsText.Trim` is
  ECMAScript's `String.prototype.trim`) and the environment tag.
- **Waitlist form** (`WaitlistForm`): the idle / submitting / success /
  error machine, where 201 and 409 both mean success and success is terminal.
- **Custom weights** (`CustomWeights`): effective weights (stored ones
  padded with 1 and trimmed to the URL count), their total, rounded
  percentage shares, the per-position edit, and the dialog's generate.
- **URL form** (`UrlForm`): `allValid`, the remove rule, the disabled rule
  and the default versus custom generate paths.
- **Destination list** (`DestinationList`, the home page): initial `[""]`,
  edit, remove by `filter`, append.

External primitives are parameters: the DynamoDB table is a
`map<string, seq<Target>>` with insert-if-absent and an oracle of service
faults; randomness is a draw oracle (`nat -> nat`) for code characters and
a sampler returning a position for the redirect pick; `isValidEmail` and
`isValidUrl` (`new URL`) are uninterpreted predicates; the Supabase insert
is an oracle from row to error; JSON decoding is a flag.

Modelling decisions:

- Weights in the backend are tagged values. Python's `bool` is an `int`, so
  `true` passes validation (it is `1 > 0`) and `false` fails. `json.loads`
  accepts `NaN`, `Infinity` and `-Infinity`; `NaN <= 0` is false, so a `NaN`
  weight passes validation as written, and so does `Infinity`. The real
  DynamoDB client refuses to store any Python `float` (see `GenerateLink.Handler`
  under "## Left out"), so a NaN or Infinity link exists only in the model's
  abstract store; for such a stored item `random.choices` would raise on a
  total that is not finite (`Redirect.NonFiniteWeightIsNotServed`).
- Weights in the dialog are integers or `NaN`; `Math.round(w / total * 100)`
  is computed exactly as `floor(100w/total + 1/2)`.
- The unique key of the waitlist table is not visible; the model treats the
  whole row (email, environment) as the key.

Behaviour of the code that the model keeps as it is:

- The waitlist form sends the email as typed; only the route trims it.
- A `fetch` that rejects (network failure) is not caught by the form, so it
  stays in `submitting` with the button disabled; it does not move to `error`.
- Removing an entry never fails: the remove button is absent when there is
  one entry, and `filter` with an index outside the list changes nothing.
- Equal weights get exactly equal percentages.
- The home page's generate button has no click handler, so pressing it
  changes nothing.

## Model

| member | source | states |
|---|---|---|
| GenerateLink.EntryError | backend/lambda/generate_link.py:72-77 | each error kind is reported exactly in its case: missing original_url first, then missing weight (original_url present), then a weight that is not a number or is <= 0 (both keys present; NaN and +Infinity pass); the entry passes exactly when it has both keys and an accepted weight |
| GenerateLink.FirstEntryError | backend/lambda/generate_link.py:71-77 | the loop returns nothing iff every remaining entry passes; otherwise the error of the lowest failing index, with every earlier entry passing |
| GenerateLink.ValidateBody | backend/lambda/generate_link.py:66-78 | no error iff urls is a non-empty list of entries with original_url and a numeric weight that is not <= 0 (NaN and +Infinity pass); missing urls and non-list/empty urls get their own errors; entry errors name the lowest failing index |
| GenerateLink.Message | backend/lambda/generate_link.py:66-78 | every error message is non-empty, so the handler's `if error:` always rejects |
| GenerateLink.Decimal | backend/lambda/generate_link.py:73 | `str(i)` of an index is a non-empty string of decimal digits without a leading zero (except for 0 itself) |
| GenerateLink.DecimalRoundTrip | backend/lambda/generate_link.py:73 | the index printed in a message reads back as that index |
| GenerateLink.MessageNamesIndex | backend/lambda/generate_link.py:71-77 | an entry error message starts with "Entry " followed by the failing index |
| GenerateLink.BuildTargets | backend/lambda/generate_link.py:46-50 | one target per entry in order, url from original_url, weight copied unchanged, visits 0, no original_url field |
| GenerateLink.ValidatedTargets | backend/lambda/generate_link.py:96-100 | a body that passed validation yields a non-empty target list whose weights are all ones the validator accepted (numbers not <= 0, NaN and Infinity included) |
| GenerateLink.Choices | backend/lambda/generate_link.py:43 | random.choices returns exactly the requested number of elements, each from the population |
| GenerateLink.GenerateBase62 | backend/lambda/generate_link.py:42-43 | a generated code has exactly the requested length and only base-62 characters |
| GenerateLink.EveryChoiceIsReachable | backend/lambda/generate_link.py:43 | every string over the population is produced by some draws, so the contract above is the tight one |
| GenerateLink.EveryBase62CodeIsReachable | backend/lambda/generate_link.py:14 | every string over the 62-character alphabet is a possible short code |
| GenerateLink.TablePut | backend/lambda/generate_link.py:30-33 | the conditional put writes exactly when there is no service fault and the code is absent, adds that code with the targets and keeps every other item; otherwise it refuses with the fault or with ConditionalCheckFailedException |
| GenerateLink.PutItem | backend/lambda/generate_link.py:28-37 | only a ConditionalCheckFailedException becomes a collision; other client errors propagate; without a fault a collision happens iff the code is already stored; a successful insert adds exactly that code |
| GenerateLink.Retry | backend/lambda/generate_link.py:53-63 | the loop's outcome attempt by attempt: a stored code was absent and is the only item added; codes after the first are base-62 of length 5; a raised error is a service fault of some attempt; exhaustion means every attempt's code was taken |
| GenerateLink.FreeCodeIsKept | backend/lambda/generate_link.py:53-56 | without a service fault a free first code is stored on the first attempt, unchanged |
| GenerateLink.PutItemWithRetry | backend/lambda/generate_link.py:53-63 | the loop returns the outcome `Retry` defines; at most 5 attempts, all but the last collided; success returns the code of the successful attempt (the input code on attempt 1) and adds only it; one generation per collision; exhaustion after 5 collisions and 5 generations; other errors propagate |
| GenerateLink.DecodeBody | backend/lambda/generate_link.py:90-94 | a missing body becomes an empty dictionary, a dictionary body is used as it is, and decoding fails only for JSON text that does not parse |
| GenerateLink.Handler | backend/lambda/generate_link.py:89-116 | undecodable JSON and a missing body give 400; a validation error gives 400 with its message; for a valid body the answer is 201 with the retry loop's stored code, short_url = "https://short.ly/" + code and targets = build_targets(urls) exactly when the loop stores one, 500 with the table unchanged exactly when it is exhausted, and the client error escapes exactly when the loop raises one |
| Redirect.Urls | backend/lambda/redirect.py:20 | the URL list has one entry per target, in target order |
| Redirect.Weights | backend/lambda/redirect.py:21 | the weight list has one entry per target, aligned with the URL list |
| Redirect.TotalIsFiniteExactly | backend/lambda/redirect.py:21-22 | the float total random.choices accumulates is finite exactly when every weight is, and is then their exact sum |
| Redirect.PickFailure | backend/lambda/redirect.py:21-22 | pick_url raises when float() rejects a weight, when there are no targets, and when the total is not greater than zero (checked first, so a minus-infinity total reports this) or otherwise not finite; it samples exactly when the list is non-empty, every weight is finite and their sum is positive |
| Redirect.PickUrl | backend/lambda/redirect.py:18-22 | on weights random.choices accepts, the picked URL is the URL of one of the targets; with a single target it is that target's URL |
| Redirect.PickFollowsSampler | backend/lambda/redirect.py:20-22 | the sampler is given the targets' URLs with their own weights in the same order, and the URL returned is the target at the position it picks |
| Redirect.EveryTargetCanBePicked | backend/lambda/redirect.py:22 | the sampler alone decides the pick: every target's URL can be returned |
| Redirect.ShortCodeOf | backend/lambda/redirect.py:26-27 | a code is present iff pathParameters is a dictionary with a non-empty short_code |
| Redirect.Handler | backend/lambda/redirect.py:25-35 | no code gives 400 without a lookup; otherwise the lookup key is the code; unknown code gives 404 with "Short code not found"; a stored item raises exactly when pick_url rejects its weights, with pick_url's reason, and otherwise it always gives 301 with an empty body and Location one of its target URLs |
| Redirect.AcceptedFiniteSumPositive | backend/lambda/redirect.py:21-22 | finite weights that passed validation add up to a positive total, so random.choices accepts them |
| Redirect.AcceptedTotalNotNegative | backend/lambda/redirect.py:21-22 | weights that passed validation never accumulate to minus infinity |
| Redirect.CreatedLinkRedirectsToSubmittedUrl | backend/lambda/redirect.py:30-35 | a link stored from a validated body with finite weights redirects (301) to one of the original_url values submitted for it |
| Redirect.NonFiniteWeightIsNotServed | backend/lambda/redirect.py:34 | a link stored from a validated body with a NaN or Infinity weight makes pick_url raise "Total of weights must be finite" instead of redirecting |
| JsText.TrimStart | web-app/app/api/waitlist/route.ts:16 | the result is a suffix of the input, only white space was dropped, and it does not start with white space |
| JsText.TrimEnd | web-app/app/api/waitlist/route.ts:16 | the result is a prefix of the input, only white space was dropped, and it does not end with white space |
| JsText.Trim | web-app/app/api/waitlist/route.ts:16 | the trimmed email is a contiguous part of the input with only white space removed at both ends and none left at either end |
| JsText.TrimIdempotent | web-app/app/api/waitlist/route.ts:16 | trimming an already trimmed email changes nothing |
| WaitlistRoute.Environment | web-app/app/api/waitlist/route.ts:16 | the tag is "prod" iff NODE_ENV is "production", else "dev" |
| WaitlistRoute.Post | web-app/app/api/waitlist/route.ts:5-26 | exactly one of 400/409/500/201; 400 iff the body is unparsable, email not a string or not valid, with no insert; otherwise the trimmed email and environment are inserted; 409 iff the insert reports 23505; 500 for any other insert error; 201 for none; success flag iff 409 or 201 |
| WaitlistRoute.RepeatedSignupSucceeds | web-app/app/api/waitlist/route.ts:18-25 | against a unique-keyed table, the same valid request twice succeeds both times, the second as 409, and the table does not change again |
| WaitlistForm.Rendered | web-app/components/waitlist-form.tsx:41-50 | the form is on screen exactly while the state is idle, submitting or error |
| WaitlistForm.SubmitEnabled | web-app/components/waitlist-form.tsx:65 | the submit button is enabled exactly in the idle and error states |
| WaitlistForm.EditEmail | web-app/components/waitlist-form.tsx:60-63 | editing replaces the email, clears clientError and leaves the state unchanged |
| WaitlistForm.Submit | web-app/components/waitlist-form.tsx:16-31 | an invalid email sets clientError, keeps the state and sends nothing; a valid one clears clientError, moves to submitting and sends the email untrimmed; nothing happens while submitting or after success |
| WaitlistForm.Receive | web-app/components/waitlist-form.tsx:33-38 | 201 or 409 move to success and call onSuccess; any other status moves to error without calling it; a rejected fetch leaves the form as it was |
| WaitlistForm.SuccessIsTerminal | web-app/components/waitlist-form.tsx:41-50 | once successful, no sequence of events changes the form |
| WaitlistForm.StepToSuccess | web-app/components/waitlist-form.tsx:33-35 | the only step into success is a 201 or 409 reply to a request in flight |
| WaitlistForm.ClientAgreesWithRoute | web-app/components/waitlist-form.tsx:33 | the form succeeds on the route's answer exactly when that answer carries success: true |
| WaitlistForm.RepeatedSignupSucceedsInBothSessions | web-app/components/waitlist-form.tsx:24-38 | submitting the same valid address in two sessions succeeds in both, the second through a 409 |
| CustomWeights.EffectiveWeights | web-app/components/custom-weights-dialog.tsx:33 | one weight per URL: the stored weight where one exists, 1 past the end of the stored list, stored extras dropped |
| CustomWeights.EffectiveWeightsStable | web-app/components/custom-weights-dialog.tsx:33 | padding and trimming twice is the same as once |
| CustomWeights.TotalAtLeastCount | web-app/components/custom-weights-dialog.tsx:35 | weights of at least 1 each total at least their number |
| CustomWeights.TotalOfDefaults | web-app/components/custom-weights-dialog.tsx:35 | with nothing stored the total equals the number of URLs |
| CustomWeights.TotalOfUpdate | web-app/components/custom-weights-dialog.tsx:35 | changing one weight moves the total by the difference, NaN counting as 0 |
| CustomWeights.RoundHalfUp | web-app/components/custom-weights-dialog.tsx:36 | the result r satisfies r <= n/d + 1/2 < r + 1 for either sign of d |
| CustomWeights.Pct | web-app/components/custom-weights-dialog.tsx:36 | 0 when the total is 0; NaN for a NaN weight otherwise; for a non-zero total of either sign the value of 100w/total rounded half up |
| CustomWeights.Percentages | web-app/components/custom-weights-dialog.tsx:77-79 | one percentage per weight, each against the total of all weights |
| CustomWeights.SharesOfWeightsAtLeastOne | web-app/components/custom-weights-dialog.tsx:35-36 | weights of at least 1 give a total of at least their number, so pct never takes the zero-total branch and each share is its weight's rounded percentage |
| CustomWeights.ThreeToOne | web-app/components/custom-weights-dialog.tsx:36 | weights 3 and 1 show 75% and 25% |
| CustomWeights.ZeroTotalZeroShares | web-app/components/custom-weights-dialog.tsx:36 | a zero total shows 0% everywhere |
| CustomWeights.EqualWeightsEqualShares | web-app/components/custom-weights-dialog.tsx:36 | n equal positive weights all show round(100/n)%, whatever their value |
| CustomWeights.PercentagesNearHundred | web-app/components/custom-weights-dialog.tsx:35-36 | for weights without NaN and a positive total, the n percentages sum to S with 200 - n < 2S <= 200 + n |
| CustomWeights.EditWeight | web-app/components/custom-weights-dialog.tsx:69-74 | the stored copy has one weight per URL, the new value at the edited index and the effective weight everywhere else |
| CustomWeights.EditedWeights | web-app/components/custom-weights-dialog.tsx:69-74 | after an edit the effective weights are exactly the stored copy, and the total moves by the edit's difference |
| CustomWeights.HandleGenerate | web-app/components/custom-weights-dialog.tsx:38-41 | when open and not generating, sends the effective weights (one per URL, in order) and closes the dialog keeping the stored weights; otherwise nothing is sent |
| UrlForm.AllValid | web-app/components/url-form.tsx:49 | true iff every URL satisfies isValidUrl |
| UrlForm.Rows | web-app/components/url-form.tsx:54-61 | one row per URL; row i reports changes under index i and gets a remove handler for index i only when there is more than one URL |
| UrlForm.RowRemoveKeepsOthers | web-app/components/url-form.tsx:59 | a row's remove handler passes its own index, and when the owner of the list removes by filter (as the home page does) it leaves a non-empty list without exactly that row |
| UrlForm.GenerateDisabled | web-app/components/url-form.tsx:75-92 | both generate buttons are disabled exactly when generation is running or some URL is invalid |
| UrlForm.PressMainButton | web-app/components/url-form.tsx:75-92 | nothing happens iff some URL is invalid or generation is running; otherwise custom weights open the dialog and default weights call onGenerate() without weights |
| UrlForm.PressDialogGenerate | web-app/components/url-form.tsx:94-100 | the dialog generates over the same URL list, with its effective weights, exactly when open and not generating; otherwise nothing is sent |
| UrlForm.CustomPathSendsOneWeightPerUrl | web-app/components/url-form.tsx:75-100 | the dialog opens only for all-valid URLs and then sends one weight per URL, the stored one or 1 |
| DestinationList.SetAt | web-app/app/page.tsx:35-41 | editing index i replaces only position i and keeps the length |
| DestinationList.FilterOut | web-app/app/page.tsx:48-51 | filtering out index i gives the list without position i; an index outside the list changes nothing |
| DestinationList.RemoveDropsOnePosition | web-app/app/page.tsx:50 | removing index i shortens by one and keeps the other entries in their order |
| DestinationList.Add | web-app/app/page.tsx:64 | add appends "" and leaves earlier entries unchanged |
| DestinationList.RemoveOffered | web-app/app/page.tsx:43 | the remove button is offered exactly when the list is non-empty and removing any of its entries leaves a non-empty list |
| DestinationList.NeverEmpty | web-app/app/page.tsx:43-51 | with remove offered only above one entry, no sequence of actions empties the list |
| DestinationList.SoleEntryStays | web-app/app/page.tsx:43 | remove on the only entry is not offered and leaves the list as it is |
| DestinationList.InitialNeverEmpty | web-app/app/page.tsx:13 | starting from [""], the page always has at least one row |

## Left out

- Redirect.PickUrl: the weighted distribution of `random.choices` is not modelled; the contract only says the pick is one of the targets.
- Redirect.PickFailure: a string weight counts as one `float()` rejects, though `float()` parses a numeric string; only validated numbers are ever stored. Floating-point overflow of a sum of finite weights and the DynamoDB `Decimal` form of stored numbers are not modelled.
- UrlForm.RowRemoveKeepsOthers: the component that owns the URL form's list and its `onRemoveUrl` is not in the code; the lemma assumes it removes with the same `filter` as the home page's list.
- CustomWeights.Pct: weights are integers and rounding is exact; JavaScript floating point, fractional weights and `Math.round` at representable .5 boundaries are not modelled.
- GenerateLink.GenerateBase62: uniformity of the random choice is not modelled; draws are an oracle.
- GenerateLink.Handler: the CORS headers that the generation tests expect from `response` are not emitted by it; the model keeps only status and body, and the `Content-Type` header is left out.
- GenerateLink.BuildTargets: `original_url` values are modelled as strings; other JSON values are copied the same way but not represented.
- GenerateLink.Handler: the DynamoDB client's serializer raises `TypeError` for every Python `float` (it accepts only `Decimal`), before the conditional write, and the handler does not catch it; so a body with any float weight (0.5, NaN, Infinity) ends in an uncaught exception in the program, while the model's abstract store accepts it and answers 201. Only `int` and `bool` weights are stored by the program as written.
- Serialisation of targets by the DynamoDB client (`boto3`) is not part of this model; stored weights are kept as the tagged values the handler passed in.
- Bodies that decode to JSON other than a dictionary, and entries that are not dictionaries, are left out; `validate_body` would raise or test substrings on them.
- JSON encoding and decoding, logging, `_get_table` and the real DynamoDB and Supabase clients are left out: they are I/O.
- `isValidEmail` and `isValidUrl` (`new URL`, WHATWG URL parsing) are uninterpreted predicates: their code is not part of this model.
- The stale test fixture `conftest.py` (it clears a `_store` the module does not have) is left out.
- Presentational components (navbar, layout, the generated-URL display, the waitlist dialog's visibility flag, the URL input row's `touched && !isValid` hint) are left out: they only render.
- The generation request payload and the component that renders the URL form are not in the code and are not modelled.

=== FILE: custom_weights.dfy ===
/**
 * The custom-weights dialog: the weights the user edits, padded with 1 for
 * URLs without a stored weight and trimmed to the URL count, their total,
 * and each weight's share of the traffic as a rounded percentage.
 *
 * Weights are integers or NaN (what `Number` makes of text that is not a
 * number); `Math.round(w / total * 100)` is computed exactly over the
 * rationals, rounding halves up.
 */
module CustomWeights {
  import opened Wrappers

  /** A weight as the dialog holds it: an integer, or NaN. */
  datatype Num = Num(v: int) | NaN

  function Min(a: int, b: int): int {
    if a <= b then a else b
  }

  /** `urls.map((_, i) => weights[i] ?? 1)`: pad with 1, trim extras. */
  function EffectiveWeights(urlCount: nat, stored: seq<Num>): (w: seq<Num>)
    ensures |w| == urlCount
    ensures w[..Min(urlCount, |stored|)] == stored[..Min(urlCount, |stored|)]
    ensures forall i :: |stored| <= i < urlCount ==> w[i] == Num(1)
  {
    seq(urlCount, i requires 0 <= i < urlCount => if i < |stored| then stored[i] else Num(1))
  }

  /** Stored weights that already match the URL count are their own effective weights. */
  lemma EffectiveWeightsStable(urlCount: nat, stored: seq<Num>)
    ensures EffectiveWeights(urlCount, EffectiveWeights(urlCount, stored)) == EffectiveWeights(urlCount, stored)
  {
  }

  /** `Number(w) || 0`: NaN (and zero) count as 0. */
  function ValueOr0(w: Num): int {
    match w
    case Num(v) => v
    case NaN => 0
  }

  /** `effectiveWeights.reduce((sum, w) => sum + (Number(w) || 0), 0)`, folded from the left. */
  function Total(ws: seq<Num>): int
    decreases |ws|
  {
    if |ws| == 0 then 0 else Total(ws[..|ws| - 1]) + ValueOr0(ws[|ws| - 1])
  }

  /** Weights of at least 1 each total at least the number of weights; `NaN` weights count as 0. */
  lemma {:induction false} TotalAtLeastCount(ws: seq<Num>)
    requires forall k :: 0 <= k < |ws| ==> ValueOr0(ws[k]) >= 1
    ensures Total(ws) >= |ws|
    decreases |ws|
  {
    if |ws| > 0 {
      TotalAtLeastCount(ws[..|ws| - 1]);
    }
  }

  /** Without any stored weight, the total is the number of URLs. */
  lemma {:induction false} TotalOfDefaults(urlCount: nat)
    ensures Total(EffectiveWeights(urlCount, [])) == urlCount
  {
    if urlCount > 0 {
      var w := EffectiveWeights(urlCount, []);
      assert w[..urlCount - 1] == EffectiveWeights(urlCount - 1, []);
      TotalOfDefaults(urlCount - 1);
    }
  }

  /** The total over a list with one position changed. */
  lemma {:induction false} TotalOfUpdate(ws: seq<Num>, i: nat, value: Num)
    requires i < |ws|
    ensures Total(ws[i := value]) == Total(ws) - ValueOr0(ws[i]) + ValueOr0(value)
    decreases |ws|
  {
    var last := |ws| - 1;
    if i < last {
      assert ws[i := value][..last] == ws[..last][i := value];
      TotalOfUpdate(ws[..last], i, value);
    } else {
      assert ws[i := value][..last] == ws[..last];
    }
  }

  /**
   * `Math.round(n / d)` for exact rationals: the integer `r` with
   * `r <= n/d + 1/2 < r + 1`, written without division.
   */
  function RoundHalfUp(n: int, d: int): (r: int)
    requires d != 0
    ensures d > 0 ==> 2 * d * r <= 2 * n + d < 2 * d * r + 2 * d
    ensures d < 0 ==> 2 * d * r >= 2 * n + d > 2 * d * r + 2 * d
  {
    if d > 0 then (2 * n + d) / (2 * d) else (-2 * n - d) / (-2 * d)
  }

  /** `pct(w)`: 0 when the total is 0, otherwise `w / total` as a rounded percentage. */
  function Pct(w: Num, total: int): (p: Num)
    ensures total == 0 ==> p == Num(0)
    ensures total != 0 && w.NaN? ==> p.NaN?
    ensures total > 0 && w.Num? ==>
              p.Num? && 2 * total * p.v <= 200 * w.v + total < 2 * total * p.v + 2 * total
    ensures total < 0 && w.Num? ==>
              p.Num? && 2 * total * p.v >= 200 * w.v + total > 2 * total * p.v + 2 * total
  {
    if total == 0 then Num(0)
    else match w
      case NaN => NaN
      case Num(v) => Num(RoundHalfUp(100 * v, total))
  }

  /** The percentage shown beside each weight. */
  function Percentages(ws: seq<Num>): (ps: seq<Num>)
    ensures |ps| == |ws|
    ensures forall i :: 0 <= i < |ws| ==> ps[i] == Pct(ws[i], Total(ws))
  {
    seq(|ws|, i requires 0 <= i < |ws| => Pct(ws[i], Total(ws)))
  }

  /**
   * Weights of at least 1 never reach the zero-total branch of `pct`: each
   * share is the rounded percentage of its weight against a positive total.
   */
  lemma SharesOfWeightsAtLeastOne(ws: seq<Num>)
    requires |ws| > 0
    requires forall k :: 0 <= k < |ws| ==> ValueOr0(ws[k]) >= 1
    ensures Total(ws) >= |ws| > 0
    ensures forall i :: 0 <= i < |ws| ==>
              ws[i].Num? && Percentages(ws)[i] == Num(RoundHalfUp(100 * ws[i].v, Total(ws)))
  {
    TotalAtLeastCount(ws);
  }

  /** With weights 3 and 1 the dialog shows 75% and 25%. */
  lemma ThreeToOne()
    ensures Percentages([Num(3), Num(1)]) == [Num(75), Num(25)]
  {
    assert Total([Num(3), Num(1)]) == 4 by {
      assert [Num(3), Num(1)][..1] == [Num(3)];
      assert [Num(3)][..0] == [];
    }
  }

  /** With a total of 0 every percentage is 0, NaN included. */
  lemma ZeroTotalZeroShares(ws: seq<Num>)
    requires Total(ws) == 0
    ensures forall i :: 0 <= i < |ws| ==> Percentages(ws)[i] == Num(0)
  {
  }

  // ---------------------------------------------------------------------------
  // Rounding arithmetic
  // ---------------------------------------------------------------------------

  lemma MulStrictCancel(c: int, x: int, y: int)
    requires c > 0
    requires c * x < c * y
    ensures x < y
  {
  }

  /** Rounding is determined by its bounds: two candidates within them coincide. */
  lemma RoundingUnique(d: int, x: int, r: int, s: int)
    requires d > 0
    requires 2 * d * r <= x < 2 * d * r + 2 * d
    requires 2 * d * s <= x < 2 * d * s + 2 * d
    ensures r == s
  {
    assert 2 * d * r < 2 * d * (s + 1);
    MulStrictCancel(2 * d, r, s + 1);
    assert 2 * d * s < 2 * d * (r + 1);
    MulStrictCancel(2 * d, s, r + 1);
  }

  /** Scaling numerator and denominator by the same positive factor does not change the rounding. */
  lemma RoundHalfUpScale(a: int, d: int, v: int)
    requires d > 0 && v > 0
    ensures RoundHalfUp(a * v, d * v) == RoundHalfUp(a, d)
  {
    var r := RoundHalfUp(a * v, d * v);
    var s := RoundHalfUp(a, d);
    assert 2 * (d * v) * r == (2 * d * r) * v;
    assert 2 * (a * v) + d * v == (2 * a + d) * v;
    assert 2 * (d * v) * r + 2 * (d * v) == (2 * d * r + 2 * d) * v;
    MulStrictCancel(v, 2 * a + d, 2 * d * r + 2 * d);
    if 2 * d * r > 2 * a + d {
      MulStrictCancel(v, 2 * a + d, 2 * d * r);
    }
    RoundingUnique(d, 2 * a + d, r, s);
  }

  // ---------------------------------------------------------------------------
  // Shares
  // ---------------------------------------------------------------------------

  /** A list of weights with no NaN. */
  predicate AllNumbers(ws: seq<Num>) {
    forall i :: 0 <= i < |ws| ==> ws[i].Num?
  }

  /** Total of a list where every weight is `v`. */
  lemma {:induction false} TotalOfEqual(ws: seq<Num>, v: int)
    requires forall i :: 0 <= i < |ws| ==> ws[i] == Num(v)
    ensures Total(ws) == |ws| * v
  {
    if |ws| > 0 {
      TotalOfEqual(ws[..|ws| - 1], v);
    }
  }

  /** `n` equal positive weights each get `round(100 / n)` percent, whatever their value. */
  lemma EqualWeightsEqualShares(ws: seq<Num>, v: int)
    requires |ws| > 0 && v > 0
    requires forall i :: 0 <= i < |ws| ==> ws[i] == Num(v)
    ensures forall i :: 0 <= i < |ws| ==> Percentages(ws)[i] == Num(RoundHalfUp(100, |ws|))
  {
    TotalOfEqual(ws, v);
    assert |ws| * v > 0;
    RoundHalfUpScale(100, |ws|, v);
  }

  /** Sum of the shares of a prefix of the weights, against a fixed total. */
  function ShareSum(ws: seq<Num>, t: int): int
    requires t > 0
  {
    if |ws| == 0 then 0 else ShareSum(ws[..|ws| - 1], t) + RoundHalfUp(100 * ValueOr0(ws[|ws| - 1]), t)
  }

  lemma Distribute(a: int, b: int, c: int)
    ensures a * (b + c) == a * b + a * c
  {
  }

  /** Each share is within half a percent of exact, so their sum is within `n / 2` of exact. */
  lemma {:induction false} ShareSumBounds(ws: seq<Num>, t: int)
    requires t > 0
    ensures 2 * t * ShareSum(ws, t) <= 200 * Total(ws) + |ws| * t
    ensures 200 * Total(ws) + |ws| * t + |ws| <= 2 * t * ShareSum(ws, t) + 2 * |ws| * t
  {
    if |ws| > 0 {
      var init := ws[..|ws| - 1];
      ShareSumBounds(init, t);
      var s0, t0, m := ShareSum(init, t), Total(init), |init|;
      var w := ValueOr0(ws[|ws| - 1]);
      var r := RoundHalfUp(100 * w, t);
      assert ShareSum(ws, t) == s0 + r;
      assert Total(ws) == t0 + w;
      Distribute(2 * t, s0, r);
      Distribute(200, t0, w);
      assert (m + 1) * t == m * t + t;
      assert 2 * (m + 1) * t == 2 * m * t + 2 * t;
    }
  }

  /** The shown percentages add up to the share sum. */
  lemma {:induction false} TotalOfShares(ps: seq<Num>, ws: seq<Num>, t: int)
    requires t > 0 && |ps| == |ws|
    requires forall i :: 0 <= i < |ws| ==> ps[i] == Num(RoundHalfUp(100 * ValueOr0(ws[i]), t))
    ensures Total(ps) == ShareSum(ws, t)
  {
    if |ws| > 0 {
      TotalOfShares(ps[..|ps| - 1], ws[..|ws| - 1], t);
    }
  }

  /** Dividing the share-sum bounds by the positive total. */
  lemma DivideBounds(t: int, n: int, s: int)
    requires t > 0 && n > 0
    requires 2 * t * s <= 200 * t + n * t
    requires 200 * t + n * t + n <= 2 * t * s + 2 * n * t
    ensures 200 - n < 2 * s <= 200 + n
  {
    assert t * (2 * s) == 2 * t * s;
    assert t * (200 + n + 1) == 200 * t + n * t + t;
    MulStrictCancel(t, 2 * s, 200 + n + 1);
    assert t * (200 - n) == 200 * t - n * t;
    MulStrictCancel(t, 200 - n, 2 * s);
  }

  /**
   * For weights with a positive total, the shown percentages add up to 100
   * up to rounding: the sum `S` of `n` percentages has `200 - n < 2S <= 200 + n`.
   */
  lemma PercentagesNearHundred(ws: seq<Num>)
    requires AllNumbers(ws) && Total(ws) > 0
    ensures 200 - |ws| < 2 * Total(Percentages(ws)) <= 200 + |ws|
  {
    var t := Total(ws);
    TotalOfShares(Percentages(ws), ws, t);
    ShareSumBounds(ws, t);
    DivideBounds(t, |ws|, ShareSum(ws, t));
  }

  // ---------------------------------------------------------------------------
  // Editing and generating
  // ---------------------------------------------------------------------------

  /** The input's `onChange` for row `i`: a copy of the effective weights with position `i` replaced. */
  function EditWeight(urlCount: nat, stored: seq<Num>, i: nat, value: Num): (next: seq<Num>)
    requires i < urlCount
    ensures |next| == urlCount
    ensures next[i] == value
    ensures forall j :: 0 <= j < urlCount && j != i ==> next[j] == EffectiveWeights(urlCount, stored)[j]
  {
    EffectiveWeights(urlCount, stored)[i := value]
  }

  /** After an edit, the effective weights are exactly the stored copy, and the total moves by the difference. */
  lemma EditedWeights(urlCount: nat, stored: seq<Num>, i: nat, value: Num)
    requires i < urlCount
    ensures EffectiveWeights(urlCount, EditWeight(urlCount, stored, i, value)) == EditWeight(urlCount, stored, i, value)
    ensures Total(EffectiveWeights(urlCount, EditWeight(urlCount, stored, i, value))) ==
              Total(EffectiveWeights(urlCount, stored)) - ValueOr0(EffectiveWeights(urlCount, stored)[i]) + ValueOr0(value)
  {
    TotalOfUpdate(EffectiveWeights(urlCount, stored), i, value);
  }

  /** The dialog: whether it is open, and the weights it has stored. */
  datatype Dialog = Dialog(open: bool, stored: seq<Num>)

  /** The initial `useState<number[]>([])`. */
  const Closed: Dialog := Dialog(false, [])

  /** The weights handed to `onGenerate`, if any, and the dialog afterwards. */
  datatype Generation = Generation(sent: Option<seq<Num>>, dialog: Dialog)

  /**
   * `handleGenerate`: sends one effective weight per URL, in order, and
   * closes the dialog; the button is disabled while generating.
   */
  function HandleGenerate(urls: seq<string>, d: Dialog, isGenerating: bool): (g: Generation)
    ensures g.sent.Some? <==> d.open && !isGenerating
    ensures g.sent.None? ==> g.dialog == d
    ensures g.sent.Some? ==>
              && |g.sent.value| == |urls|
              && g.sent.value == EffectiveWeights(|urls|, d.stored)
              && g.dialog == Dialog(false, d.stored)
  {
    if !d.open || isGenerating then Generation(None, d)
    else Generation(Some(EffectiveWeights(|urls|, d.stored)), d.(open := false))
  }
}

=== FILE: destination_list.dfy ===
/**
 * The home page's list of destination URLs: it starts as one empty entry;
 * rows can be edited, removed (only while there is more than one) and
 * appended.
 */
module DestinationList {

  /** `useState<string[]>([""])`. */
  const Initial: seq<string> := [""]

  /** The row's `onChange`: a copy of the list with position `i` replaced. */
  function SetAt(urls: seq<string>, i: nat, value: string): (next: seq<string>)
    requires i < |urls|
    ensures |next| == |urls|
    ensures next[i] == value
    ensures forall j :: 0 <= j < |urls| && j != i ==> next[j] == urls[j]
  {
    urls[i := value]
  }

  /** `current.filter((_, idx) => idx !== i)`, walking the list from the front. */
  function FilterOut(urls: seq<string>, i: int): (kept: seq<string>)
    ensures 0 <= i < |urls| ==> kept == urls[..i] + urls[i + 1..]
    ensures !(0 <= i < |urls|) ==> kept == urls
    decreases |urls|
  {
    if |urls| == 0 then []
    else if |urls| - 1 == i then FilterOut(urls[..|urls| - 1], i)
    else FilterOut(urls[..|urls| - 1], i) + [urls[|urls| - 1]]
  }

  /** Removing a position drops exactly that entry and keeps the others in order. */
  lemma RemoveDropsOnePosition(urls: seq<string>, i: nat)
    requires i < |urls|
    ensures |FilterOut(urls, i)| == |urls| - 1
    ensures forall j :: 0 <= j < i ==> FilterOut(urls, i)[j] == urls[j]
    ensures forall j :: i <= j < |urls| - 1 ==> FilterOut(urls, i)[j] == urls[j + 1]
  {
  }

  /** The add button: an empty entry appended at the end. */
  function Add(urls: seq<string>): (next: seq<string>)
    ensures |next| == |urls| + 1
    ensures next[..|urls|] == urls && next[|urls|] == ""
  {
    urls + [""]
  }

  /** The remove button is rendered only while the list has more than one entry. */
  predicate RemoveOffered(urls: seq<string>): (offered: bool)
    ensures offered <==> |urls| > 0 && forall i :: 0 <= i < |urls| ==> |FilterOut(urls, i)| > 0
  {
    assert |urls| == 1 ==> |FilterOut(urls, 0)| == 0;
    |urls| > 1
  }

  /** What the user can do on the page. */
  datatype Action = Edit(index: nat, value: string) | Remove(index: nat) | Append

  /**
   * The list after an action. Rows exist only for positions in the list, and
   * the remove button only while it is offered; any other action has no
   * control to trigger it and changes nothing.
   */
  function Apply(urls: seq<string>, a: Action): seq<string> {
    match a
    case Edit(i, value) => if i < |urls| then SetAt(urls, i, value) else urls
    case Remove(i) => if i < |urls| && RemoveOffered(urls) then FilterOut(urls, i) else urls
    case Append => Add(urls)
  }

  /** The list after a sequence of actions. */
  function Run(urls: seq<string>, actions: seq<Action>): seq<string>
    decreases |actions|
  {
    if |actions| == 0 then urls else Run(Apply(urls, actions[0]), actions[1..])
  }

  /** The list never becomes empty, whatever the user does. */
  lemma {:induction false} NeverEmpty(urls: seq<string>, actions: seq<Action>)
    requires |urls| >= 1
    ensures |Run(urls, actions)| >= 1
    decreases |actions|
  {
    if |actions| > 0 {
      var next := Apply(urls, actions[0]);
      assert |next| >= 1;
      NeverEmpty(next, actions[1..]);
    }
  }

  /** Pressing remove on the only entry is not possible: the list is left as it is. */
  lemma SoleEntryStays(url: string)
    ensures Apply([url], Remove(0)) == [url]
  {
  }

  /** Starting from the initial list, the page always shows at least one row. */
  lemma InitialNeverEmpty(actions: seq<Action>)
    ensures |Run(Initial, actions)| >= 1
  {
    NeverEmpty(Initial, actions);
  }
}

=== FILE: generate_link.dfy ===
/**
 * The link-generation Lambda: validates a request body of weighted
 * destinations, turns it into stored targets, and inserts them under a fresh
 * five-character base-62 short code, retrying on collisions.
 *
 * The DynamoDB table is a map from short code to targets; the random choice
 * of characters is a draw oracle.
 */
module GenerateLink {
  import opened Wrappers
  import HttpStatus

  /** Digits, then lower-case letters, then upper-case letters. */
  const Base62: string := "0123456789abcdefghijklmnopqrstuvwxyzABCDEFGHIJKLMNOPQRSTUVWXYZ"

  /** Number of insert attempts before the Lambda gives up. */
  const MaxRetries: nat := 5

  /** Default length of a generated short code. */
  const CodeLength: nat := 5

  const ShortUrlPrefix: string := "https://short.ly/"

  /** The error code DynamoDB reports when `attribute_not_exists(short_code)` fails. */
  const ConditionalCheckFailed: string := "ConditionalCheckFailedException"

  const InvalidJsonMessage: string := "Invalid JSON body"
  const ExhaustedMessage: string := "Could not generate a unique short code. Please try again."

  // ---------------------------------------------------------------------------
  // Request body
  // ---------------------------------------------------------------------------

  /**
   * A decoded JSON value in the `weight` position, as Python sees it.
   * JSON `true`/`false` decode to `bool`, which Python counts as an `int`;
   * `json.loads` also accepts the literals `NaN`, `Infinity` and `-Infinity`.
   */
  datatype Weight =
    | Int(i: int)
    | Bool(b: bool)
    | Float(r: real)
    | Infinity(negative: bool)
    | NaN
    | Str(s: string)
    | Other

  /** `isinstance(w, (int, float))`. */
  predicate IsNumber(w: Weight) {
    w.Int? || w.Bool? || w.Float? || w.Infinity? || w.NaN?
  }

  /** Python's `w <= 0` for a number; every comparison with NaN is false. */
  predicate AtMostZero(w: Weight)
    requires IsNumber(w)
  {
    match w
    case Int(i) => i <= 0
    case Bool(b) => !b
    case Float(r) => r <= 0.0
    case Infinity(negative) => negative
    case NaN => false
  }

  /** A number with a finite `float` value; `NaN` and the infinities are not. */
  predicate IsFinite(w: Weight) {
    w.Int? || w.Bool? || w.Float?
  }

  /** `float(w)` for a finite number. */
  function FloatValue(w: Weight): real
    requires IsFinite(w)
  {
    match w
    case Int(i) => i as real
    case Bool(b) => if b then 1.0 else 0.0
    case Float(r) => r
  }

  /** A weight the validator accepts: a number that is not `<= 0`. */
  predicate AcceptedWeight(w: Weight) {
    IsNumber(w) && !AtMostZero(w)
  }

  /** One element of `urls`: a dictionary in which either key may be missing. */
  datatype Entry = Entry(originalUrl: Option<string>, weight: Option<Weight>)

  /** The value under the `urls` key of the body. */
  datatype UrlsField = Absent | NotAList | List(entries: seq<Entry>)

  /** A request body that decoded to a dictionary. */
  datatype Body = Body(urls: UrlsField)

  /** The failures `validate_body` reports, in the order it checks them. */
  datatype ValidationError =
    | MissingUrls
    | UrlsNotNonEmptyList
    | MissingOriginalUrl(index: nat)
    | MissingWeight(index: nat)
    | InvalidWeight(index: nat)
  {
    /** The error names an entry of the list. */
    predicate AtEntry() {
      MissingOriginalUrl? || MissingWeight? || InvalidWeight?
    }
  }

  /** An entry that passes every per-entry check. */
  predicate EntryOk(e: Entry) {
    e.originalUrl.Some? && e.weight.Some? && AcceptedWeight(e.weight.value)
  }

  /** A body for which `validate_body` returns `None`, stated without the loop. */
  predicate WellFormed(b: Body) {
    && b.urls.List?
    && |b.urls.entries| > 0
    && forall k :: 0 <= k < |b.urls.entries| ==> EntryOk(b.urls.entries[k])
  }

  /** The checks on entry `i`, in source order: `original_url`, then `weight`, then its value. */
  function EntryError(e: Entry, i: nat): (r: Option<ValidationError>)
    ensures r.None? <==> EntryOk(e)
    ensures r.Some? ==> r.value.AtEntry() && r.value.index == i
    ensures r == Some(MissingOriginalUrl(i)) <==> e.originalUrl.None?
    ensures r == Some(MissingWeight(i)) <==> e.originalUrl.Some? && e.weight.None?
    ensures r == Some(InvalidWeight(i)) <==>
              e.originalUrl.Some? && e.weight.Some? && !AcceptedWeight(e.weight.value)
  {
    if e.originalUrl.None? then Some(MissingOriginalUrl(i))
    else if e.weight.None? then Some(MissingWeight(i))
    else if !AcceptedWeight(e.weight.value) then Some(InvalidWeight(i))
    else None
  }

  /** The loop of `validate_body` from position `from` on: the first failing entry wins. */
  function FirstEntryError(entries: seq<Entry>, from: nat): (r: Option<ValidationError>)
    requires from <= |entries|
    decreases |entries| - from
    ensures r.None? <==> forall k :: from <= k < |entries| ==> EntryOk(entries[k])
    ensures r.Some? ==> r.value.AtEntry()
    ensures r.Some? ==> from <= r.value.index < |entries|
    ensures r.Some? ==> r == EntryError(entries[r.value.index], r.value.index)
    ensures r.Some? ==> forall k :: from <= k < r.value.index ==> EntryOk(entries[k])
  {
    if from == |entries| then None
    else if EntryError(entries[from], from).Some? then EntryError(entries[from], from)
    else FirstEntryError(entries, from + 1)
  }

  /** `validate_body`: `None` exactly for a well-formed body, otherwise the first failure. */
  function ValidateBody(b: Body): (r: Option<ValidationError>)
    ensures r.None? <==> WellFormed(b)
    ensures r == Some(MissingUrls) <==> b.urls.Absent?
    ensures r == Some(UrlsNotNonEmptyList) <==> b.urls.NotAList? || b.urls == List([])
    ensures r.Some? && r.value.AtEntry() ==>
              && b.urls.List?
              && r.value.index < |b.urls.entries|
              && r == EntryError(b.urls.entries[r.value.index], r.value.index)
              && forall k :: 0 <= k < r.value.index ==> EntryOk(b.urls.entries[k])
  {
    match b.urls
    case Absent => Some(MissingUrls)
    case NotAList => Some(UrlsNotNonEmptyList)
    case List(entries) =>
      if |entries| == 0 then Some(UrlsNotNonEmptyList) else FirstEntryError(entries, 0)
  }

  // ---------------------------------------------------------------------------
  // Error messages
  // ---------------------------------------------------------------------------

  function DigitChar(d: nat): (c: char)
    requires d < 10
    ensures '0' <= c <= '9'
  {
    "0123456789"[d]
  }

  function DigitValue(c: char): nat {
    if '0' <= c <= '9' then (c as int - '0' as int) as nat else 0
  }

  /** Python's `str(n)` for a natural number. */
  function Decimal(n: nat): (s: string)
    ensures |s| > 0
    ensures forall k :: 0 <= k < |s| ==> '0' <= s[k] <= '9'
    ensures s[0] == '0' ==> n == 0
  {
    if n < 10 then [DigitChar(n)] else Decimal(n / 10) + [DigitChar(n % 10)]
  }

  /** Reads a string of decimal digits back as a number. */
  function DecimalValue(s: string): nat {
    if |s| == 0 then 0 else DecimalValue(s[..|s| - 1]) * 10 + DigitValue(s[|s| - 1])
  }

  /** The index printed in a message reads back as that index. */
  lemma {:induction false} DecimalRoundTrip(n: nat)
    ensures DecimalValue(Decimal(n)) == n
  {
    var s := Decimal(n);
    if n < 10 {
      assert s[..|s| - 1] == [];
    } else {
      assert s[..|s| - 1] == Decimal(n / 10);
      DecimalRoundTrip(n / 10);
    }
  }

  /** The message `validate_body` returns for each failure. */
  function Message(e: ValidationError): (m: string)
    ensures |m| > 0
  {
    match e
    case MissingUrls => "Missing required field: urls"
    case UrlsNotNonEmptyList => "Field 'urls' must be a non-empty list"
    case MissingOriginalUrl(i) => "Entry " + Decimal(i) + " is missing 'original_url'"
    case MissingWeight(i) => "Entry " + Decimal(i) + " is missing 'weight'"
    case InvalidWeight(i) => "Entry " + Decimal(i) + " has an invalid weight (must be a positive number)"
  }

  /** The index of an entry failure is written right after "Entry ". */
  lemma MessageNamesIndex(e: ValidationError)
    requires e.AtEntry()
    ensures Message(e)[..6] == "Entry "
    ensures DecimalValue(Message(e)[6..6 + |Decimal(e.index)|]) == e.index
  {
    var m := Message(e);
    assert m[6..6 + |Decimal(e.index)|] == Decimal(e.index);
    DecimalRoundTrip(e.index);
  }

  // ---------------------------------------------------------------------------
  // Targets
  // ---------------------------------------------------------------------------

  /** A stored destination: the entry's URL and weight, with a visit counter. */
  datatype Target = Target(url: string, weight: Weight, visits: nat)

  /** Every entry carries both keys, which `build_targets` reads unconditionally. */
  predicate HasKeys(entries: seq<Entry>) {
    forall k :: 0 <= k < |entries| ==> entries[k].originalUrl.Some? && entries[k].weight.Some?
  }

  /** `build_targets`: one target per entry, in order, with `visits` at zero. */
  function BuildTargets(entries: seq<Entry>): (ts: seq<Target>)
    requires HasKeys(entries)
    ensures |ts| == |entries|
    ensures forall k :: 0 <= k < |ts| ==>
              && ts[k].url == entries[k].originalUrl.value
              && ts[k].weight == entries[k].weight.value
              && ts[k].visits == 0
  {
    seq(|entries|, k requires 0 <= k < |entries| =>
      Target(entries[k].originalUrl.value, entries[k].weight.value, 0))
  }

  /**
   * A validated body can be turned into targets, and every stored weight is
   * one the validator accepted: a number that is not `<= 0`, which includes
   * `NaN` and `Infinity`.
   */
  lemma ValidatedTargets(b: Body)
    requires ValidateBody(b).None?
    ensures b.urls.List? && HasKeys(b.urls.entries)
    ensures |BuildTargets(b.urls.entries)| > 0
    ensures forall k :: 0 <= k < |b.urls.entries| ==>
              AcceptedWeight(BuildTargets(b.urls.entries)[k].weight)
  {
  }

  // ---------------------------------------------------------------------------
  // Short codes
  // ---------------------------------------------------------------------------

  /**
   * `random.choices(population, k=length)`: element `j` of the result is the
   * population entry picked by the `j`-th draw of the random source.
   */
  function Choices(population: string, length: nat, draw: nat -> nat): (picked: string)
    requires |population| > 0
    ensures |picked| == length
    ensures forall j :: 0 <= j < |picked| ==> picked[j] in population
  {
    seq(length, j requires 0 <= j < length => population[draw(j) % |population|])
  }

  /** `generate_base62(length)`: `length` characters, each from the base-62 alphabet. */
  function GenerateBase62(length: nat, draw: nat -> nat): (code: string)
    ensures |code| == length
    ensures forall j :: 0 <= j < |code| ==> code[j] in Base62
  {
    Choices(Base62, length, draw)
  }

  /** The position of `c` in `s`. */
  function IndexOf(s: string, c: char): (i: nat)
    requires c in s
    ensures i < |s| && s[i] == c
  {
    if s[0] == c then 0 else 1 + IndexOf(s[1..], c)
  }

  /** The draws that pick the characters of `picked` from `population`. */
  function DrawsFor(population: string, picked: string): nat -> nat
    requires forall j :: 0 <= j < |picked| ==> picked[j] in population
  {
    (j: nat) => if j < |picked| then IndexOf(population, picked[j]) else 0
  }

  /** Every string over the population can be drawn: the choice is unconstrained. */
  lemma EveryChoiceIsReachable(population: string, picked: string)
    requires |population| > 0
    requires forall j :: 0 <= j < |picked| ==> picked[j] in population
    ensures Choices(population, |picked|, DrawsFor(population, picked)) == picked
  {
    var draw := DrawsFor(population, picked);
    var g := Choices(population, |picked|, draw);
    forall j | 0 <= j < |picked|
      ensures g[j] == picked[j]
    {
      var i := IndexOf(population, picked[j]);
      assert draw(j) == i;
      assert i % |population| == i;
    }
  }

  /** Every base-62 string is a possible short code: the alphabet is exactly the reachable set. */
  lemma EveryBase62CodeIsReachable(code: string)
    requires forall j :: 0 <= j < |code| ==> code[j] in Base62
    ensures GenerateBase62(|code|, DrawsFor(Base62, code)) == code
  {
    EveryChoiceIsReachable(Base62, code);
  }

  // ---------------------------------------------------------------------------
  // Storage
  // ---------------------------------------------------------------------------

  /** The DynamoDB table: short code to stored targets. */
  type Store = map<string, seq<Target>>

  /** A `botocore` client error, identified by its error code. */
  datatype ClientError = ClientError(code: string)

  /** What the table reports for one conditional put. */
  datatype TableReply = Written(store: Store) | Refused(error: ClientError)

  /**
   * The table's `put_item` with `attribute_not_exists(short_code)`: it writes
   * only an absent code. `fault` is a service failure unrelated to the
   * condition (throttling, say), which leaves the table unchanged.
   */
  function TablePut(store: Store, code: string, targets: seq<Target>, fault: Option<ClientError>): (r: TableReply)
    ensures r.Written? <==> fault.None? && code !in store
    ensures r.Written? ==> code in r.store && r.store[code] == targets &&
                           forall c :: c in store ==> c in r.store && r.store[c] == store[c]
    ensures r.Written? ==> r.store.Keys == store.Keys + {code}
    ensures r.Refused? ==> Some(r.error) == fault || (fault.None? && r.error.code == ConditionalCheckFailed)
  {
    if fault.Some? then Refused(fault.value)
    else if code in store then Refused(ClientError(ConditionalCheckFailed))
    else Written(store[code := targets])
  }

  /** The outcome of `put_item`: stored, a collision (`KeyError`), or a re-raised client error. */
  datatype PutResult = Inserted(store: Store) | Collision | Raised(error: ClientError)

  /** `put_item`: only a failed condition becomes a collision; any other error propagates. */
  function PutItem(store: Store, code: string, targets: seq<Target>, fault: Option<ClientError>): (r: PutResult)
    ensures r.Collision? <==> TablePut(store, code, targets, fault) == Refused(ClientError(ConditionalCheckFailed))
    ensures r.Raised? <==> (TablePut(store, code, targets, fault).Refused? &&
                           TablePut(store, code, targets, fault).error.code != ConditionalCheckFailed)
    ensures r.Raised? ==> TablePut(store, code, targets, fault) == Refused(r.error)
    ensures fault.None? ==> (r.Collision? <==> code in store)
    ensures r.Inserted? ==> fault.None? && code !in store && r.store == store[code := targets]
  {
    match TablePut(store, code, targets, fault)
    case Written(s) => Inserted(s)
    case Refused(e) => if e.code == ConditionalCheckFailed then Collision else Raised(e)
  }

  /**
   * The code tried at attempt `attempt` (counted from 1): the caller's code
   * first, then the code generated after each collision from the draws of
   * generation `attempt - 1`.
   */
  function AttemptCode(first: string, draws: nat -> nat -> nat, attempt: nat): string {
    if attempt <= 1 then first else GenerateBase62(CodeLength, draws(attempt - 1))
  }

  /** How `put_item_with_retry` ends. */
  datatype RetryResult = Created(code: string, store: Store) | Exhausted | Failed(error: ClientError)

  /**
   * The outcome of the retry loop from attempt `attempt` on, one attempt per
   * step: the first insert that is not a collision decides it, and after
   * `MaxRetries` collisions the loop is exhausted.
   */
  function Retry(store: Store, first: string, targets: seq<Target>, draws: nat -> nat -> nat,
                 faults: nat -> Option<ClientError>, attempt: nat): (r: RetryResult)
    requires 1 <= attempt
    decreases MaxRetries + 1 - attempt
    ensures r.Created? ==> r.code !in store && r.store == store[r.code := targets]
    ensures r.Created? && attempt > 1 ==>
              |r.code| == CodeLength && forall k :: 0 <= k < |r.code| ==> r.code[k] in Base62
    ensures r.Failed? ==> exists k :: attempt <= k <= MaxRetries && faults(k) == Some(r.error)
    ensures r.Exhausted? ==>
              forall k :: attempt <= k <= MaxRetries ==>
                AttemptCode(first, draws, k) in store || faults(k) == Some(ClientError(ConditionalCheckFailed))
  {
    if attempt > MaxRetries then Exhausted
    else match PutItem(store, AttemptCode(first, draws, attempt), targets, faults(attempt))
      case Inserted(s) => Created(AttemptCode(first, draws, attempt), s)
      case Raised(e) => Failed(e)
      case Collision => Retry(store, first, targets, draws, faults, attempt + 1)
  }

  /**
   * Without service faults, an absent first code is stored on the first
   * attempt: the retry loop does not replace a code that is free.
   */
  lemma FreeCodeIsKept(store: Store, first: string, targets: seq<Target>, draws: nat -> nat -> nat,
                       faults: nat -> Option<ClientError>)
    requires faults(1).None? && first !in store
    ensures Retry(store, first, targets, draws, faults, 1) == Created(first, store[first := targets])
  {
  }

  /**
   * `put_item_with_retry`: at most `MaxRetries` inserts, one fresh code per
   * collision. `faults(k)` is the service failure, if any, at attempt `k`.
   */
  method PutItemWithRetry(store: Store, shortCode: string, targets: seq<Target>,
                          draws: nat -> nat -> nat, faults: nat -> Option<ClientError>)
    returns (r: RetryResult, attempts: nat, generations: nat)
    ensures r == Retry(store, shortCode, targets, draws, faults, 1)
    ensures 1 <= attempts <= MaxRetries
    ensures forall k :: 1 <= k < attempts ==>
              PutItem(store, AttemptCode(shortCode, draws, k), targets, faults(k)).Collision?
    ensures r.Created? ==>
              && r.code == AttemptCode(shortCode, draws, attempts)
              && PutItem(store, r.code, targets, faults(attempts)) == Inserted(r.store)
              && r.code !in store
              && r.store == store[r.code := targets]
              && generations == attempts - 1
    ensures r.Created? && attempts == 1 ==> r.code == shortCode
    ensures r.Created? && attempts > 1 ==> |r.code| == CodeLength && forall k :: 0 <= k < |r.code| ==> r.code[k] in Base62
    ensures r.Exhausted? ==>
              && attempts == MaxRetries
              && generations == MaxRetries
              && PutItem(store, AttemptCode(shortCode, draws, attempts), targets, faults(attempts)).Collision?
    ensures r.Failed? ==>
              && PutItem(store, AttemptCode(shortCode, draws, attempts), targets, faults(attempts)) == Raised(r.error)
              && generations == attempts - 1
  {
    var code := shortCode;
    var attempt: nat := 1;
    generations := 0;
    while attempt <= MaxRetries
      invariant 1 <= attempt <= MaxRetries + 1
      invariant generations == attempt - 1
      invariant code == AttemptCode(shortCode, draws, attempt)
      invariant Retry(store, shortCode, targets, draws, faults, 1) ==
                Retry(store, shortCode, targets, draws, faults, attempt)
      invariant forall k :: 1 <= k < attempt ==>
                  PutItem(store, AttemptCode(shortCode, draws, k), targets, faults(k)).Collision?
    {
      var put := PutItem(store, code, targets, faults(attempt));
      match put
      case Inserted(s) =>
        return Created(code, s), attempt, generations;
      case Raised(e) =>
        return Failed(e), attempt, generations;
      case Collision =>
        code := GenerateBase62(CodeLength, draws(attempt));
        generations := generations + 1;
        attempt := attempt + 1;
    }
    return Exhausted, MaxRetries, generations;
  }

  // ---------------------------------------------------------------------------
  // Handler
  // ---------------------------------------------------------------------------

  /**
   * The `body` of the Lambda event: absent, a JSON text (whose decoding may
   * fail), or an already-decoded dictionary.
   */
  datatype EventBody = NoBody | JsonText(decoded: Option<Body>) | DictBody(body: Body)

  /** The JSON document `response` serialises. */
  datatype Reply =
    | ErrorReply(message: string)
    | CreatedReply(shortCode: string, shortUrl: string, targets: seq<Target>)

  /** `response(status_code, body)`: the status code and the reply it carries. */
  datatype Response = Response(status: int, reply: Reply)

  /** The handler returns a response (with the table as it is afterwards) or lets a client error escape. */
  datatype HandlerResult = Returned(response: Response, store: Store) | Escaped(error: ClientError)

  /** The body the handler validates; a missing body defaults to `"{}"`, an empty dictionary. */
  function DecodeBody(event: EventBody): (b: Option<Body>)
    ensures b.None? <==> event == JsonText(None)
    ensures event.NoBody? ==> b == Some(Body(Absent))
    ensures event.DictBody? ==> b == Some(event.body)
  {
    match event
    case NoBody => Some(Body(Absent))
    case JsonText(decoded) => decoded
    case DictBody(b) => Some(b)
  }

  /**
   * `handler`: 400 for an undecodable or invalid body; for a valid one the
   * retry loop decides: 201 with the code it stored, that code's URL and the
   * targets, 500 when every attempt collides, and any other client error
   * escapes. Generation `k` of a short code uses the draws `draws(k)`; the
   * first code is generation 0.
   */
  method Handler(event: EventBody, store: Store, draws: nat -> nat -> nat, faults: nat -> Option<ClientError>)
    returns (r: HandlerResult)
    ensures r.Returned? ==> r.response.status in {HttpStatus.Created, HttpStatus.BadRequest, HttpStatus.InternalServerError}
    ensures DecodeBody(event).None? ==>
              r == Returned(Response(HttpStatus.BadRequest, ErrorReply(InvalidJsonMessage)), store)
    ensures event.NoBody? ==>
              r == Returned(Response(HttpStatus.BadRequest, ErrorReply(Message(MissingUrls))), store)
    ensures DecodeBody(event).Some? && !WellFormed(DecodeBody(event).value) ==>
              r == Returned(Response(HttpStatus.BadRequest,
                                     ErrorReply(Message(ValidateBody(DecodeBody(event).value).value))), store)
    ensures r.Returned? && r.response.status == HttpStatus.BadRequest <==>
              DecodeBody(event).None? || !WellFormed(DecodeBody(event).value)
    ensures r.Returned? && r.response.status == HttpStatus.InternalServerError ==>
              r.response.reply == ErrorReply(ExhaustedMessage) && r.store == store
    ensures r.Returned? && r.response.status == HttpStatus.Created ==>
              && DecodeBody(event).Some? && WellFormed(DecodeBody(event).value)
              && r.response.reply.CreatedReply?
              && var code := r.response.reply.shortCode;
              && r.response.reply.shortUrl == ShortUrlPrefix + code
              && r.response.reply.targets == BuildTargets(DecodeBody(event).value.urls.entries)
              && |code| == CodeLength
              && (forall k :: 0 <= k < |code| ==> code[k] in Base62)
              && code !in store
              && r.store == store[code := r.response.reply.targets]
    ensures DecodeBody(event).Some? && WellFormed(DecodeBody(event).value) ==>
              var targets := BuildTargets(DecodeBody(event).value.urls.entries);
              var outcome := Retry(store, GenerateBase62(CodeLength, draws(0)), targets, draws, faults, 1);
              && (r.Returned? && r.response.status == HttpStatus.Created <==> outcome.Created?)
              && (r.Returned? && r.response.status == HttpStatus.InternalServerError <==> outcome.Exhausted?)
              && (r.Escaped? <==> outcome.Failed?)
              && (outcome.Created? ==>
                    r == Returned(Response(HttpStatus.Created,
                                           CreatedReply(outcome.code, ShortUrlPrefix + outcome.code, targets)),
                                  outcome.store))
              && (outcome.Exhausted? ==>
                    r == Returned(Response(HttpStatus.InternalServerError, ErrorReply(ExhaustedMessage)), store))
              && (outcome.Failed? ==> r == Escaped(outcome.error))
  {
    var decoded := DecodeBody(event);
    if decoded.None? {
      return Returned(Response(HttpStatus.BadRequest, ErrorReply(InvalidJsonMessage)), store);
    }
    var body := decoded.value;
    var error := ValidateBody(body);
    if error.Some? {
      return Returned(Response(HttpStatus.BadRequest, ErrorReply(Message(error.value))), store);
    }
    var targets := BuildTargets(body.urls.entries);
    var shortCode := GenerateBase62(CodeLength, draws(0));
    var result, attempts, generations := PutItemWithRetry(store, shortCode, targets, draws, faults);
    match result
    case Exhausted =>
      return Returned(Response(HttpStatus.InternalServerError, ErrorReply(ExhaustedMessage)), store);
    case Failed(e) =>
      return Escaped(e);
    case Created(code, s) =>
      return Returned(Response(HttpStatus.Created, CreatedReply(code, ShortUrlPrefix + code, targets)), s);
  }
}

=== FILE: http_status.dfy ===
/** The HTTP status codes the services answer with, named as in RFC 9110. */
module HttpStatus {

  /** Section 15.3.2 of RFC 9110. */
  const Created: int := 201

  /** Section 15.4.2 of RFC 9110. */
  const MovedPermanently: int := 301

  /** Section 15.5.1 of RFC 9110. */
  const BadRequest: int := 400

  /** Section 15.5.5 of RFC 9110. */
  const NotFound: int := 404

  /** Section 15.5.10 of RFC 9110. */
  const Conflict: int := 409

  /** Section 15.6.1 of RFC 9110. */
  const InternalServerError: int := 500
}

=== FILE: js_text.dfy ===
/**
 * ECMAScript's `String.prototype.trim`: removes leading and trailing
 * WhiteSpace and LineTerminator code points.
 */
module JsText {

  /** The WhiteSpace and LineTerminator code points of ECMAScript, category Zs included. */
  predicate IsWhiteSpace(c: char) {
    || c == '\t' || c == '\n' || c == '\r' || c == ' '
    || c == '\U{000B}' || c == '\U{000C}' || c == '\U{00A0}' || c == '\U{1680}'
    || ('\U{2000}' <= c <= '\U{200A}')
    || c == '\U{2028}' || c == '\U{2029}' || c == '\U{202F}' || c == '\U{205F}'
    || c == '\U{3000}' || c == '\U{FEFF}'
  }

  /** All of `s` is white space. */
  predicate AllWhiteSpace(s: string) {
    forall k :: 0 <= k < |s| ==> IsWhiteSpace(s[k])
  }

  /** `s` with its leading white space removed. */
  function TrimStart(s: string): (r: string)
    ensures |r| <= |s| && r == s[|s| - |r|..]
    ensures AllWhiteSpace(s[..|s| - |r|])
    ensures |r| > 0 ==> !IsWhiteSpace(r[0])
  {
    if |s| > 0 && IsWhiteSpace(s[0]) then TrimStart(s[1..]) else s
  }

  /** `s` with its trailing white space removed. */
  function TrimEnd(s: string): (r: string)
    ensures |r| <= |s| && r == s[..|r|]
    ensures AllWhiteSpace(s[|r|..])
    ensures |r| > 0 ==> !IsWhiteSpace(r[|r| - 1])
  {
    if |s| > 0 && IsWhiteSpace(s[|s| - 1]) then TrimEnd(s[..|s| - 1]) else s
  }

  /** `s.trim()`. */
  function Trim(s: string): (r: string)
    ensures exists i, j :: 0 <= i <= j <= |s| && r == s[i..j] && AllWhiteSpace(s[..i]) && AllWhiteSpace(s[j..])
    ensures |r| > 0 ==> !IsWhiteSpace(r[0]) && !IsWhiteSpace(r[|r| - 1])
  {
    var t := TrimStart(s);
    var r := TrimEnd(t);
    var i := |s| - |t|;
    assert r == s[i..i + |r|];
    assert s[i + |r|..] == t[|r|..];
    r
  }

  /** A string with white space at neither end is its own trimmed form. */
  lemma {:induction false} TrimOfTrimmed(s: string)
    requires |s| > 0 ==> !IsWhiteSpace(s[0]) && !IsWhiteSpace(s[|s| - 1])
    ensures Trim(s) == s
  {
  }

  /** Trimming twice is trimming once. */
  lemma TrimIdempotent(s: string)
    ensures Trim(Trim(s)) == Trim(s)
  {
    TrimOfTrimmed(Trim(s));
  }
}

=== FILE: redirect.dfy ===
/**
 * The redirect Lambda: looks a short code up in the table and answers with a
 * permanent redirect to one of its targets, picked by a weighted sampler.
 *
 * The sampler (`random.choices` with weights) is an oracle that returns a
 * position; the model states when `float()` and `random.choices` raise
 * instead, and otherwise promises only that the pick is one of the targets'
 * URLs.
 */
module Redirect {
  import opened Wrappers
  import HttpStatus
  import GenerateLink

  type Target = GenerateLink.Target
  type Store = GenerateLink.Store
  type Weight = GenerateLink.Weight

  const MissingCodeMessage: string := "Missing short code"
  const NotFoundMessage: string := "Short code not found"

  /** The `pathParameters` of the event: absent, `None`, or a dictionary. */
  datatype PathParameters = Missing | Null | Params(shortCode: Option<string>)

  /** The weighted sampler: given the URLs and their weights, the position it picks. */
  type Sampler = (seq<string>, seq<Weight>) -> nat

  /** The URLs of the targets, in order. */
  function Urls(targets: seq<Target>): (urls: seq<string>)
    ensures |urls| == |targets|
    ensures forall k :: 0 <= k < |targets| ==> urls[k] == targets[k].url
  {
    seq(|targets|, k requires 0 <= k < |targets| => targets[k].url)
  }

  /** The weights of the targets, in the same order as `Urls`. */
  function Weights(targets: seq<Target>): (weights: seq<Weight>)
    ensures |weights| == |targets|
    ensures forall k :: 0 <= k < |targets| ==> weights[k] == targets[k].weight
  {
    seq(|targets|, k requires 0 <= k < |targets| => targets[k].weight)
  }

  // ---------------------------------------------------------------------------
  // When the pick raises
  // ---------------------------------------------------------------------------

  /** A Python `float`: a finite value, an infinity, or `nan`. */
  datatype Total = Finite(value: real) | PlusInfinity | MinusInfinity | NotANumber

  /** Python's `t + w` on floats: `nan` is sticky, and opposite infinities give `nan`. */
  function Plus(t: Total, w: Weight): Total
    requires GenerateLink.IsNumber(w)
  {
    match w
    case NaN => NotANumber
    case Infinity(negative) =>
      (match t
       case Finite(_) => if negative then MinusInfinity else PlusInfinity
       case PlusInfinity => if negative then NotANumber else PlusInfinity
       case MinusInfinity => if negative then MinusInfinity else NotANumber
       case NotANumber => NotANumber)
    case _ =>
      (match t
       case Finite(v) => Finite(v + GenerateLink.FloatValue(w))
       case _ => t)
  }

  /** Every weight is a number, so `float()` accepts it. */
  predicate AllNumbers(weights: seq<Weight>) {
    forall k :: 0 <= k < |weights| ==> GenerateLink.IsNumber(weights[k])
  }

  /** Every weight has a finite value. */
  predicate AllFinite(weights: seq<Weight>) {
    forall k :: 0 <= k < |weights| ==> GenerateLink.IsFinite(weights[k])
  }

  /** The last of `random.choices`' cumulative weights, accumulated from the left. */
  function TotalOf(weights: seq<Weight>): Total
    requires AllNumbers(weights)
    decreases |weights|
  {
    if |weights| == 0 then Finite(0.0)
    else Plus(TotalOf(weights[..|weights| - 1]), weights[|weights| - 1])
  }

  /** The exact sum of finite weights. */
  function Sum(weights: seq<Weight>): real
    requires AllFinite(weights)
    decreases |weights|
  {
    if |weights| == 0 then 0.0
    else Sum(weights[..|weights| - 1]) + GenerateLink.FloatValue(weights[|weights| - 1])
  }

  /** The total is finite exactly when every weight is, and is then their sum. */
  lemma {:induction false} TotalIsFiniteExactly(weights: seq<Weight>)
    requires AllNumbers(weights)
    ensures TotalOf(weights).Finite? <==> AllFinite(weights)
    ensures AllFinite(weights) ==> TotalOf(weights) == Finite(Sum(weights))
    decreases |weights|
  {
    if |weights| > 0 {
      var init := weights[..|weights| - 1];
      var last := weights[|weights| - 1];
      assert AllNumbers(init);
      TotalIsFiniteExactly(init);
      assert AllFinite(weights) <==> AllFinite(init) && GenerateLink.IsFinite(last);
    }
  }

  /** Why `pick_url` raises instead of returning a URL. */
  datatype PickError =
    | NotConvertible    // `float()` rejects a weight
    | NoTargets         // `cum_weights[-1]` on an empty list
    | TotalNotPositive  // "Total of weights must be greater than zero"
    | TotalNotFinite    // "Total of weights must be finite"

  /**
   * The checks `pick_url` goes through before sampling, in order: every
   * weight converted by `float()`, a non-empty list, then a total that is
   * greater than zero and finite.
   */
  function PickFailure(weights: seq<Weight>): (e: Option<PickError>)
    ensures e.None? <==> |weights| > 0 && AllFinite(weights) && Sum(weights) > 0.0
    ensures e == Some(NotConvertible) <==> !AllNumbers(weights)
    ensures e == Some(NoTargets) <==> |weights| == 0
    ensures e == Some(TotalNotPositive) <==>
              && AllNumbers(weights) && |weights| > 0
              && (TotalOf(weights).MinusInfinity? || (AllFinite(weights) && Sum(weights) <= 0.0))
    ensures e == Some(TotalNotFinite) <==>
              AllNumbers(weights) && |weights| > 0 && !AllFinite(weights) && !TotalOf(weights).MinusInfinity?
  {
    if !AllNumbers(weights) then Some(NotConvertible)
    else if |weights| == 0 then Some(NoTargets)
    else
      TotalIsFiniteExactly(weights);
      match TotalOf(weights)
      case Finite(v) => if v <= 0.0 then Some(TotalNotPositive) else None
      case MinusInfinity => Some(TotalNotPositive)
      case _ => Some(TotalNotFinite)
  }

  /**
   * `pick_url` on weights it accepts: the sampler sees the URLs and weights
   * position by position, and the result is the URL of one of the targets.
   */
  function PickUrl(targets: seq<Target>, sampler: Sampler): (url: string)
    requires PickFailure(Weights(targets)).None?
    ensures exists k :: 0 <= k < |targets| && targets[k].url == url
    ensures |targets| == 1 ==> url == targets[0].url
  {
    var urls := Urls(targets);
    var k := sampler(urls, Weights(targets)) % |urls|;
    assert targets[k].url == urls[k];
    urls[k]
  }

  /** The URL returned is the one at the position the sampler picks from the aligned URLs and weights. */
  lemma PickFollowsSampler(targets: seq<Target>, sampler: Sampler, k: nat)
    requires k < |targets| && PickFailure(Weights(targets)).None?
    requires sampler(Urls(targets), Weights(targets)) == k
    ensures PickUrl(targets, sampler) == targets[k].url
  {
  }

  /** The sampler alone decides the pick: every target can be chosen. */
  lemma EveryTargetCanBePicked(targets: seq<Target>, k: nat)
    requires k < |targets| && PickFailure(Weights(targets)).None?
    ensures PickUrl(targets, (urls: seq<string>, weights: seq<Weight>) => k) == targets[k].url
  {
    PickFollowsSampler(targets, (urls: seq<string>, weights: seq<Weight>) => k, k);
  }

  /** The body of a response: an error document or the empty string. */
  datatype Reply = ErrorReply(message: string) | Empty

  /** A response: status, the `Location` header if any, and the body. */
  datatype Response = Response(status: int, location: Option<string>, reply: Reply)

  /**
   * What the handler does: it answers, after looking up `lookedUp` if it
   * did, or `pick_url` raises on the stored targets.
   */
  datatype Outcome =
    | Answered(response: Response, lookedUp: Option<string>)
    | PickRaised(lookedUp: Option<string>, error: PickError)

  /** `(event.get("pathParameters") or {}).get("short_code")`, with `not short_code` folded in. */
  function ShortCodeOf(params: PathParameters): (code: Option<string>)
    ensures code.Some? <==> params.Params? && params.shortCode.Some? && params.shortCode.value != ""
    ensures code.Some? ==> code.value == params.shortCode.value
  {
    match params
    case Params(Some(c)) => if c == "" then None else Some(c)
    case _ => None
  }

  /**
   * `handler`: 400 without a code, 404 for an unknown code, an exception when
   * `pick_url` rejects the stored weights, else 301 to one of the targets.
   */
  function Handler(params: PathParameters, store: Store, sampler: Sampler): (r: Outcome)
    ensures ShortCodeOf(params).None? <==>
              r == Answered(Response(HttpStatus.BadRequest, None, ErrorReply(MissingCodeMessage)), None)
    ensures ShortCodeOf(params).Some? ==> r.lookedUp == ShortCodeOf(params)
    ensures r.Answered? ==> r.response.status in {HttpStatus.BadRequest, HttpStatus.NotFound, HttpStatus.MovedPermanently}
    ensures r.Answered? && r.response.status == HttpStatus.NotFound <==>
              ShortCodeOf(params).Some? && ShortCodeOf(params).value !in store
    ensures r.PickRaised? <==> ShortCodeOf(params).Some? && ShortCodeOf(params).value in store &&
                               PickFailure(Weights(store[ShortCodeOf(params).value])).Some?
    ensures r.PickRaised? ==> Some(r.error) == PickFailure(Weights(store[r.lookedUp.value]))
    ensures ShortCodeOf(params).Some? && ShortCodeOf(params).value in store &&
            PickFailure(Weights(store[ShortCodeOf(params).value])).None? ==>
              r.Answered? && r.response.status == HttpStatus.MovedPermanently
    ensures r.Answered? && r.response.status == HttpStatus.NotFound ==>
              r.response == Response(HttpStatus.NotFound, None, ErrorReply(NotFoundMessage))
    ensures r.Answered? && r.response.status == HttpStatus.MovedPermanently ==>
              && r.response.reply == Empty
              && r.response.location.Some?
              && exists k :: 0 <= k < |store[r.lookedUp.value]| && store[r.lookedUp.value][k].url == r.response.location.value
  {
    match ShortCodeOf(params)
    case None =>
      Answered(Response(HttpStatus.BadRequest, None, ErrorReply(MissingCodeMessage)), None)
    case Some(code) =>
      if code !in store then
        Answered(Response(HttpStatus.NotFound, None, ErrorReply(NotFoundMessage)), Some(code))
      else if PickFailure(Weights(store[code])).Some? then
        PickRaised(Some(code), PickFailure(Weights(store[code])).value)
      else
        Answered(Response(HttpStatus.MovedPermanently, Some(PickUrl(store[code], sampler)), Empty), Some(code))
  }

  /** Finite weights the validator accepted add up to a positive total. */
  lemma {:induction false} AcceptedFiniteSumPositive(weights: seq<Weight>)
    requires |weights| > 0 && AllFinite(weights)
    requires forall k :: 0 <= k < |weights| ==> GenerateLink.AcceptedWeight(weights[k])
    ensures Sum(weights) > 0.0
    decreases |weights|
  {
    var init := weights[..|weights| - 1];
    var last := weights[|weights| - 1];
    assert GenerateLink.FloatValue(last) > 0.0;
    if |init| > 0 {
      assert AllFinite(init);
      AcceptedFiniteSumPositive(init);
    }
  }

  /**
   * Accepted weights never accumulate to minus infinity: with `NaN` or
   * `Infinity` among them the total is not finite and not negative.
   */
  lemma {:induction false} AcceptedTotalNotNegative(weights: seq<Weight>)
    requires forall k :: 0 <= k < |weights| ==> GenerateLink.AcceptedWeight(weights[k])
    ensures AllNumbers(weights) && !TotalOf(weights).MinusInfinity?
    decreases |weights|
  {
    if |weights| > 0 {
      AcceptedTotalNotNegative(weights[..|weights| - 1]);
    }
  }

  /**
   * A link the generation Lambda stored from finite weights redirects to one
   * of the URLs that were submitted for it.
   */
  lemma CreatedLinkRedirectsToSubmittedUrl(store: Store, code: string, body: GenerateLink.Body, sampler: Sampler)
    requires code != ""
    requires GenerateLink.WellFormed(body)
    requires code in store && store[code] == GenerateLink.BuildTargets(body.urls.entries)
    requires forall k :: 0 <= k < |body.urls.entries| ==> GenerateLink.IsFinite(body.urls.entries[k].weight.value)
    ensures var r := Handler(Params(Some(code)), store, sampler);
            && r.Answered?
            && r.response.status == HttpStatus.MovedPermanently
            && exists k :: 0 <= k < |body.urls.entries| &&
                 body.urls.entries[k].originalUrl == r.response.location
  {
    var r := Handler(Params(Some(code)), store, sampler);
    var entries := body.urls.entries;
    var targets := store[code];
    assert |targets| == |entries| > 0;
    var weights := Weights(targets);
    assert AllFinite(weights);
    AcceptedFiniteSumPositive(weights);
    var url := r.response.location.value;
    var k :| 0 <= k < |targets| && targets[k].url == url;
    assert entries[k].originalUrl == Some(url);
  }

  /**
   * The validator accepts `NaN` and `Infinity`, but a link stored with such a
   * weight cannot be served: `random.choices` rejects the non-finite total.
   */
  lemma NonFiniteWeightIsNotServed(store: Store, code: string, body: GenerateLink.Body, sampler: Sampler)
    requires code != ""
    requires GenerateLink.WellFormed(body)
    requires code in store && store[code] == GenerateLink.BuildTargets(body.urls.entries)
    requires exists k :: 0 <= k < |body.urls.entries| && !GenerateLink.IsFinite(body.urls.entries[k].weight.value)
    ensures Handler(Params(Some(code)), store, sampler) == PickRaised(Some(code), TotalNotFinite)
  {
    var weights := Weights(store[code]);
    var k :| 0 <= k < |body.urls.entries| && !GenerateLink.IsFinite(body.urls.entries[k].weight.value);
    assert !GenerateLink.IsFinite(weights[k]);
    AcceptedTotalNotNegative(weights);
    TotalIsFiniteExactly(weights);
  }
}

=== FILE: url_form.dfy ===
/**
 * The URL form: one row per destination, the generate button gated on every
 * URL being valid, and the choice between generating with default weights
 * and opening the custom-weights dialog.
 *
 * `isValidUrl` (whether `new URL(value)` succeeds) is an uninterpreted
 * predicate.
 */
module UrlForm {
  import opened Wrappers
  import CustomWeights
  import DestinationList

  /** `urls.every(isValidUrl)`, walking the list from the front. */
  function AllValid(urls: seq<string>, isValidUrl: string -> bool): (ok: bool)
    ensures ok <==> forall i :: 0 <= i < |urls| ==> isValidUrl(urls[i])
    decreases |urls|
  {
    |urls| == 0 || (isValidUrl(urls[0]) && AllValid(urls[1..], isValidUrl))
  }

  /** `disabled={!allValid || isGenerating}` on both generate-path buttons. */
  predicate GenerateDisabled(urls: seq<string>, isValidUrl: string -> bool, isGenerating: bool): (disabled: bool)
    ensures disabled <==> isGenerating || exists i :: 0 <= i < |urls| && !isValidUrl(urls[i])
  {
    !AllValid(urls, isValidUrl) || isGenerating
  }

  /** The callbacks one row receives: the index it reports changes under, and its remove index if any. */
  datatype Row = Row(value: string, changeIndex: nat, removeIndex: Option<nat>)

  /** `urls.map((url, i) => <UrlInputRow ... />)`. */
  function Rows(urls: seq<string>): (rows: seq<Row>)
    ensures |rows| == |urls|
    ensures forall i :: 0 <= i < |urls| ==>
              && rows[i].value == urls[i]
              && rows[i].changeIndex == i
              && (rows[i].removeIndex.Some? <==> DestinationList.RemoveOffered(urls))
              && (rows[i].removeIndex.Some? ==> rows[i].removeIndex.value == i)
  {
    seq(|urls|, i requires 0 <= i < |urls| =>
      Row(urls[i], i, if |urls| > 1 then Some(i) else None))
  }

  /** Every remove handler a row can offer leaves a non-empty list with that row gone. */
  lemma RowRemoveKeepsOthers(urls: seq<string>, i: nat)
    requires i < |urls| && Rows(urls)[i].removeIndex.Some?
    ensures var next := DestinationList.FilterOut(urls, Rows(urls)[i].removeIndex.value);
            |next| == |urls| - 1 >= 1 && next == urls[..i] + urls[i + 1..]
  {
  }

  /** What pressing the main button asks for. */
  datatype Request = NoRequest | OpenWeightsDialog | Generate(weights: Option<seq<CustomWeights.Num>>)

  /**
   * The main button: disabled unless every URL is valid and nothing is being
   * generated; with custom weights on it opens the dialog, otherwise it
   * calls `onGenerate()` without weights.
   */
  function PressMainButton(urls: seq<string>, isValidUrl: string -> bool, isGenerating: bool,
                           useCustomWeights: bool): (r: Request)
    ensures r.NoRequest? <==> GenerateDisabled(urls, isValidUrl, isGenerating)
    ensures r.OpenWeightsDialog? <==> useCustomWeights && !GenerateDisabled(urls, isValidUrl, isGenerating)
    ensures r.Generate? <==> !useCustomWeights && !GenerateDisabled(urls, isValidUrl, isGenerating)
    ensures r.Generate? ==> r.weights.None?
  {
    if GenerateDisabled(urls, isValidUrl, isGenerating) then NoRequest
    else if useCustomWeights then OpenWeightsDialog
    else Generate(None)
  }

  /** The dialog's generate button, wired to the same `onGenerate` over the same URL list. */
  function PressDialogGenerate(urls: seq<string>, dialog: CustomWeights.Dialog, isGenerating: bool): (r: Request)
    ensures r.Generate? <==> dialog.open && !isGenerating
    ensures r.Generate? ==> r.weights == Some(CustomWeights.EffectiveWeights(|urls|, dialog.stored))
    ensures !r.Generate? ==> r == NoRequest
  {
    var g := CustomWeights.HandleGenerate(urls, dialog, isGenerating);
    if g.sent.Some? then Generate(g.sent) else NoRequest
  }

  /**
   * The custom path end to end: the dialog opens only for valid URLs, and
   * generating from it sends one effective weight per URL, in order.
   */
  lemma CustomPathSendsOneWeightPerUrl(urls: seq<string>, isValidUrl: string -> bool,
                                       stored: seq<CustomWeights.Num>)
    requires PressMainButton(urls, isValidUrl, false, true).OpenWeightsDialog?
    ensures forall i :: 0 <= i < |urls| ==> isValidUrl(urls[i])
    ensures var r := PressDialogGenerate(urls, CustomWeights.Dialog(true, stored), false);
            && r.Generate? && r.weights.Some?
            && |r.weights.value| == |urls|
            && forall i :: 0 <= i < |urls| ==>
                 r.weights.value[i] == (if i < |stored| then stored[i] else CustomWeights.Num(1))
  {
  }
}

=== FILE: waitlist_form.dfy ===
/**
 * The waitlist form component: idle, submitting, success or error. A 201 and
 * a 409 from the route both count as success; success replaces the form by a
 * confirmation, so nothing can be submitted afterwards.
 *
 * `isValidEmail` is the same uninterpreted predicate the route uses; the
 * request is the email as typed, and the reply is the status the route
 * answers with, or a network failure.
 */
module WaitlistForm {
  import opened Wrappers
  import HttpStatus
  import WaitlistRoute

  const InvalidEmailMessage: string := "Please enter a valid email address."

  /** The component's `state`. */
  datatype Phase = Idle | Submitting | Succeeded | Failed

  /** The component's three pieces of React state. */
  datatype Form = Form(email: string, phase: Phase, clientError: string)

  /** `useState("")`, `useState("idle")`, `useState("")`. */
  const Initial: Form := Form("", Idle, "")

  /** The form (input and button) is on screen only until the signup succeeds. */
  predicate Rendered(f: Form): (shown: bool)
    ensures shown <==> f.phase in {Idle, Submitting, Failed}
  {
    f.phase != Succeeded
  }

  /** The submit button is disabled while a request is in flight. */
  predicate SubmitEnabled(f: Form): (enabled: bool)
    ensures enabled <==> f.phase in {Idle, Failed}
  {
    Rendered(f) && f.phase != Submitting
  }

  /** The input's `onChange`: the email is replaced and the client error cleared. */
  function EditEmail(f: Form, value: string): (g: Form)
    ensures Rendered(f) ==> g == Form(value, f.phase, "")
    ensures !Rendered(f) ==> g == f
  {
    if Rendered(f) then f.(email := value, clientError := "") else f
  }

  /** The form after a submit, and the email sent to the route if a request went out. */
  datatype Submission = Submission(form: Form, request: Option<string>)

  /**
   * `handleSubmit` up to the `fetch`: an invalid email only sets the client
   * error; a valid one clears it, enters `submitting` and sends the email
   * untrimmed.
   */
  function Submit(f: Form, isValidEmail: string -> bool): (s: Submission)
    ensures !SubmitEnabled(f) ==> s == Submission(f, None)
    ensures SubmitEnabled(f) && !isValidEmail(f.email) ==>
              s == Submission(Form(f.email, f.phase, InvalidEmailMessage), None)
    ensures SubmitEnabled(f) && isValidEmail(f.email) ==>
              s == Submission(Form(f.email, Submitting, ""), Some(f.email))
    ensures s.request.Some? <==> SubmitEnabled(f) && isValidEmail(f.email)
  {
    if !SubmitEnabled(f) then Submission(f, None)
    else if !isValidEmail(f.email) then Submission(f.(clientError := InvalidEmailMessage), None)
    else Submission(f.(clientError := "", phase := Submitting), Some(f.email))
  }

  /** What `fetch` produced: a response status, or a rejected promise. */
  datatype Reply = Status(code: int) | NetworkFailure

  /** The statuses the component treats as a completed signup. */
  predicate Successful(code: int) {
    code == HttpStatus.Created || code == HttpStatus.Conflict
  }

  /** The form after the request settles, and whether `onSuccess` was called. */
  datatype Settled = Settled(form: Form, onSuccessCalled: bool)

  /**
   * `handleSubmit` after the `fetch`: 201 or 409 succeed and call
   * `onSuccess`; any other status fails. A rejected `fetch` is not caught,
   * so the form stays in `submitting`.
   */
  function Receive(f: Form, reply: Reply): (s: Settled)
    requires f.phase == Submitting
    ensures s.onSuccessCalled <==> reply.Status? && Successful(reply.code)
    ensures s.form.phase == Succeeded <==> reply.Status? && Successful(reply.code)
    ensures s.form.phase == Failed <==> reply.Status? && !Successful(reply.code)
    ensures reply.NetworkFailure? ==> s.form == f
    ensures s.form.email == f.email && s.form.clientError == f.clientError
  {
    match reply
    case NetworkFailure => Settled(f, false)
    case Status(code) =>
      if Successful(code) then Settled(f.(phase := Succeeded), true)
      else Settled(f.(phase := Failed), false)
  }

  /** One user action or network event. */
  datatype Event = Type(value: string) | Press | Arrive(reply: Reply)

  /** The form after one event; a reply only matters while a request is in flight. */
  function Step(f: Form, e: Event, isValidEmail: string -> bool): Form {
    match e
    case Type(value) => EditEmail(f, value)
    case Press => Submit(f, isValidEmail).form
    case Arrive(reply) => if f.phase == Submitting then Receive(f, reply).form else f
  }

  /** The form after a sequence of events. */
  function Run(f: Form, events: seq<Event>, isValidEmail: string -> bool): Form
    decreases |events|
  {
    if |events| == 0 then f else Run(Step(f, events[0], isValidEmail), events[1..], isValidEmail)
  }

  /** Success is terminal: no event changes a form that has succeeded. */
  lemma {:induction false} SuccessIsTerminal(f: Form, events: seq<Event>, isValidEmail: string -> bool)
    requires f.phase == Succeeded
    ensures Run(f, events, isValidEmail) == f
  {
    if |events| > 0 {
      assert Step(f, events[0], isValidEmail) == f;
      SuccessIsTerminal(f, events[1..], isValidEmail);
    }
  }

  /** The phase only becomes `Succeeded` through a 201 or 409 reply to a request in flight. */
  lemma StepToSuccess(f: Form, e: Event, isValidEmail: string -> bool)
    requires f.phase != Succeeded
    requires Step(f, e, isValidEmail).phase == Succeeded
    ensures f.phase == Submitting && e.Arrive? && e.reply.Status? && Successful(e.reply.code)
  {
  }

  /**
   * The component's notion of success agrees with the route's `success`
   * flag: the form succeeds exactly when the route's answer carries it.
   */
  lemma ClientAgreesWithRoute(f: Form, req: WaitlistRoute.Request, nodeEnv: Option<string>,
                              isValidEmail: string -> bool, insert: WaitlistRoute.Row -> Option<WaitlistRoute.DbError>)
    requires f.phase == Submitting
    ensures var answer := WaitlistRoute.Post(req, nodeEnv, isValidEmail, insert);
            Receive(f, Status(answer.status)).form.phase == Succeeded <==> answer.reply == WaitlistRoute.Success
  {
  }

  /**
   * Submitting the same valid address from two sessions succeeds in both:
   * the first is created or already present, the second is a duplicate.
   */
  lemma RepeatedSignupSucceedsInBothSessions(email: string, table: set<WaitlistRoute.Row>,
                                              nodeEnv: Option<string>, isValidEmail: string -> bool)
    requires isValidEmail(email)
    ensures var first := Submit(Form(email, Idle, ""), isValidEmail);
            var answer1 := WaitlistRoute.Post(WaitlistRoute.Json(WaitlistRoute.JsString(first.request.value)),
                                              nodeEnv, isValidEmail, WaitlistRoute.InsertInto(table));
            var table' := WaitlistRoute.TableAfter(table, answer1);
            var second := Submit(Form(email, Idle, ""), isValidEmail);
            var answer2 := WaitlistRoute.Post(WaitlistRoute.Json(WaitlistRoute.JsString(second.request.value)),
                                              nodeEnv, isValidEmail, WaitlistRoute.InsertInto(table'));
            && Receive(first.form, Status(answer1.status)).form.phase == Succeeded
            && Receive(second.form, Status(answer2.status)).form.phase == Succeeded
            && answer2.status == HttpStatus.Conflict
  {
    var req := WaitlistRoute.Json(WaitlistRoute.JsString(email));
    WaitlistRoute.RepeatedSignupSucceeds(table, req, nodeEnv, isValidEmail);
  }
}

=== FILE: waitlist_route.dfy ===
/**
 * The waitlist API route (`POST /api/waitlist`): validates the email,
 * inserts the trimmed address with an environment tag, and classifies the
 * database's answer. A unique violation is a successful, idempotent signup.
 *
 * `isValidEmail` is an uninterpreted predicate; the Supabase insert is an
 * oracle from the inserted row to the error it reports, if any.
 */
module WaitlistRoute {
  import opened Wrappers
  import HttpStatus
  import JsText

  /** PostgreSQL's SQLSTATE for `unique_violation`. */
  const UniqueViolation: string := "23505"

  const InvalidEmailMessage: string := "Invalid email"
  const ServerErrorMessage: string := "Server error"

  /** The `email` property of the parsed body: a string, or anything else (`undefined` included). */
  datatype JsValue = JsString(s: string) | NotAString

  /** The request body: not JSON at all, or JSON whose `email` property is given. */
  datatype Request = Unparsable | Json(email: JsValue)

  /** The row the route inserts into the `waitlist` table. */
  datatype Row = Row(email: string, environment: string)

  /** An error reported by the insert, identified by its SQLSTATE code. */
  datatype DbError = DbError(code: string)

  /** The JSON document of the response. */
  datatype Reply = Success | ErrorReply(message: string)

  /** The response, and the row the route tried to insert if it got that far. */
  datatype RouteResponse = RouteResponse(status: int, reply: Reply, inserted: Option<Row>)

  /** The environment tag: production traffic is told apart from everything else. */
  function Environment(nodeEnv: Option<string>): (tag: string)
    ensures tag == "prod" <==> nodeEnv == Some("production")
    ensures tag == "prod" || tag == "dev"
  {
    if nodeEnv == Some("production") then "prod" else "dev"
  }

  /** The request carries a string email that passes `isValidEmail`. */
  predicate Acceptable(req: Request, isValidEmail: string -> bool) {
    req.Json? && req.email.JsString? && isValidEmail(req.email.s)
  }

  /** `POST`: 400, 409, 500 or 201. */
  function Post(req: Request, nodeEnv: Option<string>, isValidEmail: string -> bool,
                insert: Row -> Option<DbError>): (r: RouteResponse)
    ensures r.status in {HttpStatus.BadRequest, HttpStatus.Conflict, HttpStatus.InternalServerError, HttpStatus.Created}
    ensures r.status == HttpStatus.BadRequest <==> !Acceptable(req, isValidEmail)
    ensures r.status == HttpStatus.BadRequest ==> r.inserted.None? && r.reply == ErrorReply(InvalidEmailMessage)
    ensures Acceptable(req, isValidEmail) ==>
              r.inserted == Some(Row(JsText.Trim(req.email.s), Environment(nodeEnv)))
    ensures r.status == HttpStatus.Conflict <==>
              r.inserted.Some? && insert(r.inserted.value) == Some(DbError(UniqueViolation))
    ensures r.status == HttpStatus.InternalServerError <==>
              r.inserted.Some? && insert(r.inserted.value).Some? && insert(r.inserted.value).value.code != UniqueViolation
    ensures r.status == HttpStatus.Created <==> r.inserted.Some? && insert(r.inserted.value).None?
    ensures r.reply == Success <==> r.status in {HttpStatus.Conflict, HttpStatus.Created}
  {
    if !Acceptable(req, isValidEmail) then
      RouteResponse(HttpStatus.BadRequest, ErrorReply(InvalidEmailMessage), None)
    else
      var row := Row(JsText.Trim(req.email.s), Environment(nodeEnv));
      match insert(row)
      case Some(error) =>
        if error.code == UniqueViolation then RouteResponse(HttpStatus.Conflict, Success, Some(row))
        else RouteResponse(HttpStatus.InternalServerError, ErrorReply(ServerErrorMessage), Some(row))
      case None => RouteResponse(HttpStatus.Created, Success, Some(row))
  }

  /**
   * The `waitlist` table with a unique constraint: inserting a row already
   * present reports a unique violation. The constrained columns are not
   * part of this model; the whole row stands for the key.
   */
  function InsertInto(table: set<Row>): Row -> Option<DbError> {
    row => if row in table then Some(DbError(UniqueViolation)) else None
  }

  /** The table after a request: a 201 added the inserted row, nothing else changes it. */
  function TableAfter(table: set<Row>, r: RouteResponse): set<Row> {
    if r.status == HttpStatus.Created && r.inserted.Some? then table + {r.inserted.value} else table
  }

  /**
   * Signing up twice with the same address succeeds both times: the second
   * request meets the unique constraint and answers 409 with `success`.
   */
  lemma RepeatedSignupSucceeds(table: set<Row>, req: Request, nodeEnv: Option<string>, isValidEmail: string -> bool)
    requires Acceptable(req, isValidEmail)
    ensures var first := Post(req, nodeEnv, isValidEmail, InsertInto(table));
            var second := Post(req, nodeEnv, isValidEmail, InsertInto(TableAfter(table, first)));
            && first.reply == Success
            && second.status == HttpStatus.Conflict
            && second.reply == Success
            && TableAfter(TableAfter(table, first), second) == TableAfter(table, first)
  {
    var first := Post(req, nodeEnv, isValidEmail, InsertInto(table));
    var row := first.inserted.value;
    assert row in TableAfter(table, first);
  }
}

=== FILE: wrappers.dfy ===
/** The optional value shared by every module of the model. */
module Wrappers {

  /** A value that may be absent: a missing dictionary key, `None`, `undefined`. */
  datatype Option<+T> = None | Some(value: T)
}
